=== FILE: README.md ===
# hono-alova client adapter: a Dafny model of the request-dispatch interpreter

`hac(alova, options)` gives a hono route tree a typed client whose calls can go
through the alova request engine instead of a raw `fetch`. At run time the
client is a chain of JavaScript proxies: each property access appends a
segment to a path, and a call hands the path and the call arguments to
`proxyCallback`. The callback reads the last three segments and picks one of
these outcomes:

- a reflection name (`….name.toString()`);
- a self-description (`….toString()` / `….valueOf()`);
- a URL (`….$url()`);
- a managed request for the alova engine (`….$alova.$get()`);
- a direct `fetch` (`….$post()`);
- the unsent request object, when no verb marker was given.

The request builders `AlovaRequestImpl.apply` and `ClientRequestImpl.fetch`
then turn the call arguments (`query`, `form`, `json`, `param`, `header`,
`cookie`) into a body, a content type, a header record, a final URL and a
decision on whether the body is sent.

The model is written in functional style:

- The proxy becomes the pair `Client.Extend` / `Client.Invoke` over an
  immutable `Node`.
- The callback becomes the decision procedure `Client.Classify` plus
  `Client.ProxyCallback`, which returns a tagged `Outcome`.
- Each request builder returns a description of the call it would make on
  the engine (`EngineCall`) or on the transport (`FetchCall`). Nothing is
  sent.

Modules:

- `js.dfy`, module `Js`: the JavaScript built-ins the code relies on. These
  are `undefined`, `join`, `slice(-3).toReversed()`, ASCII
  `toUpperCase` / `toLowerCase`, the `/^\$/` test, and object spread over
  string records.
- `types.dfy`, module `Types`: the call-argument, option-object and body
  shapes.
- `utils.dfy`, module `Utils`: the `Helpers` record of collaborators whose
  code is not part of this model. These are `mergePath`, `replaceUrlParam`,
  `removeIndexString`, `buildSearchParams(...).toString()`, `handleForm`,
  `JSON.stringify`, hono's cookie `serialize`, `upperMethodFirstLetter` and
  `deepMerge`. Each one is a function-valued field, so every property below
  holds whatever those functions compute.
- `request_impl.dfy`, module `RequestImpl`: `AlovaRequestImpl` and
  `ClientRequestImpl` from `src/request-impl.ts`.
- `client.dfy`, module `Client`: `createProxy` and `proxyCallback` from
  `src/client.ts`.

Some behaviours of the code are easy to miss. The model follows the code in
each of them:

- The direct-fetch path leaves out the body only for `GET` and `HEAD`, so
  `OPTIONS` sends its body. The managed path leaves it out for `Get`, `Head`
  and `Options`.
- `$url` is checked before `$alova`, so `….$alova.$url()` yields a URL.
- The `$url` result does not have the `index` segment stripped. Only the two
  request builders strip it.
- The managed method name is not the upper-case `GET` but, for example,
  `Get`. The callback first applies `upperMethodFirstLetter` to the verb.
  The request constructor then lower-cases that result and applies
  `upperMethodFirstLetter` again.

## Model

| member | source | states |
|---|---|---|
| Client.Extend | src/client.ts:17-22 | A symbol key or the key `then` yields undefined. Every other string key yields a node whose path is the old path with exactly that key appended. The old node is a value and is left as it was. |
| Client.WalkAccumulates | src/client.ts:15-22 | A run of property accesses succeeds exactly when every key is accessible. The node reached then holds the starting path followed by exactly those keys, so chains built from one node never see each other's segments. |
| Client.InvokeSeesWholeChain | src/client.ts:23-28 | Calling the node reached from the root hands the callback exactly the accessed keys as its path, together with the call's arguments. |
| Client.CallSeesWholeChain | src/client.ts:23-28 | A client call on a chain built from the root is decided by `proxyCallback` on exactly the accessed keys and the call's arguments, so the dispatch lemmas apply to client calls. |
| Client.LastPartsAt | src/client.ts:44 | Elements 0, 1 and 2 of `lastParts` are the last, second-to-last and third-to-last segments. Each is undefined when the path is too short. |
| Client.PopVerb | src/client.ts:65-71 | When the last segment starts with `$`, it is removed. The method is that segment minus its single leading `$`, so `"$" + method` gives the segment back. Otherwise the path is unchanged and the method is `""`. |
| Client.Classify | src/client.ts:43-110 | The decision in `proxyCallback`, stated on the path itself. `name.toString` or `name.valueOf` gives the third-from-last segment, or `""` if there is none. A bare `toString` or `valueOf` gives the self-description. `$url` gives a URL. `$alova.$verb` gives managed dispatch over the segments before `$alova`. Any other `$verb` gives a direct fetch. Everything else gives no verb, and a lone `$` is dropped. Each case is stated as an if-and-only-if. |
| Client.BaseUrl | src/client.ts:73 | The base URL is never empty. It is the configured `baseURL` when one is set, and exactly `/` when it is unset. |
| Client.UrlWithArgs | src/client.ts:77-88 | With no first argument, or one without `param` and `query`, the URL is unchanged. `param` alone gives exactly the substituted URL. With `query`, the result is the URL (with params substituted when `param` is given), then `?`, then the serialised query. |
| Client.ProxyCallback | src/client.ts:42-111 | A path ending in `toString` or `valueOf` always gives a name or a self-description. A URL, managed or fetch result requires a final `$` segment. URL, managed and fetch each occur exactly under their path condition. The unsent request has method `""` and no fields set. |
| Client.UrlDispatch | src/client.ts:73-88 | A path ending in `$url` gives the base URL merged with the other segments joined by `/`, with params and query applied. This holds even under `$alova`. |
| Client.ManagedDispatch | src/client.ts:92-100 | Under `$alova` with a verb other than `url`, the engine request uses the segments before `$alova` joined by `/`, not merged with the base URL. The verb goes through `upperMethodFirstLetter`, and the engine receives both call arguments and the adapter options. |
| Client.FetchDispatch | src/client.ts:104-109 | For any other verb, the client request is built for the merged base URL with the verb as written. It is fetched with `deepMerge(options ?? {}, args[1] ?? {})`. |
| Client.UncalledDispatch | src/client.ts:104-110 | With no verb, the result is the unsent request for the merged URL, with method `""` and none of its fields set, as the `ClientRequestImpl` constructor (src/request-impl.ts:121-124) leaves them. |
| Client.NameDispatch | src/client.ts:47-51 | A path ending in `name.toString` or `name.valueOf` gives the segment before `name`, or `""` when there is none. |
| Client.ReflectDispatch | src/client.ts:47-62 | A path ending in `toString` or `valueOf` not after `name` gives the callback's source text for `toString` and the callback itself for `valueOf`. |
| Client.NameOfUsers | src/client.ts:47-51 | `users.name.toString()` yields `"users"`. |
| Client.ManagedUsersById | src/client.ts:92-100 | `users[':id'].$alova.$get()` is a managed request for the path `users/:id`. |
| RequestImpl.Absorb | src/request-impl.ts:44-61 | With no argument object, every field keeps its value. `query` and `param` replace their field when given. A truthy `json` gives a JSON body and the `application/json` type whether or not `form` was given. `form` alone gives a form body and keeps the type. With neither, body and type keep their values. |
| RequestImpl.FalsyJsonIgnored | src/request-impl.ts:53-56 | A falsy `json` (`null`, `false`, `0`, `""`) is skipped: the fields are exactly those the same arguments give without `json`. |
| RequestImpl.JsonOverridesForm | src/request-impl.ts:49-56 | When both a truthy `json` and `form` are given, the body is the JSON text and never the form payload, and the content type is JSON. |
| RequestImpl.FreshPayload | src/request-impl.ts:25-61 | On a new request, a content type is set exactly when a truthy `json` was given, and it is then `application/json`. There is a body exactly when a truthy `json` or a `form` was given, and a query exactly when `query` was given. Path params default to none. |
| RequestImpl.SerializedCookies | src/request-impl.ts:72-75 | One serialised string per cookie entry, in entry order. |
| RequestImpl.CookieValue | src/request-impl.ts:71-77 | With no entries the `Cookie` value is empty. With one entry it is exactly that entry serialised. |
| RequestImpl.CookieValueAppend | src/request-impl.ts:73-76 | Each additional cookie entry adds exactly one `,` and its serialised form at the end. |
| RequestImpl.ForceHeaders | src/request-impl.ts:71-81 | A given `cookie` sets `Cookie` to the joined entries. A content type sets `Content-Type`. Every other key, and any forced key that was not given, keeps its merged value and is present exactly when it was merged. |
| RequestImpl.ForcedHeadersIgnoreSources | src/request-impl.ts:63-81 | No merged header source can change a forced `Cookie` or `Content-Type`. |
| RequestImpl.FinalUrl | src/request-impl.ts:83-90 | The URL starts with the result of `replaceUrlParam(removeIndexString(url), pathParams)`. Without a query nothing follows it. With a query, exactly `?` and the query follow it. |
| RequestImpl.NewAlovaRequest | src/request-impl.ts:31-35 | The new request keeps its path, has no fields set, and its method name is `upperMethodFirstLetter` of the lower-cased method. |
| RequestImpl.AlovaMethodIgnoresCase | src/request-impl.ts:33 | Methods that differ only in letter case choose the same engine method. |
| RequestImpl.AlovaHeaderPrecedence | src/request-impl.ts:63-81 | For any key that is not forced, config headers beat options headers, which beat the call's `header`. A key is present exactly when some source has it. |
| RequestImpl.Apply | src/request-impl.ts:37-108 | The engine call keeps the normalised method and uses the final URL. It passes the body exactly when the method is not `Get`, `Head` or `Options`, and then passes the normalised body. Its config is `deepMerge(config ?? {}, { headers })`, where `{ headers }` has no other field and the headers spread from `options` and `config` are their `headers` records or nothing. |
| RequestImpl.Spread | src/request-impl.ts:198-203 | Each field that `init` gives replaces the computed `body`, `method` or `headers`. Its other keys are added and win. |
| RequestImpl.Fetch | src/request-impl.ts:125-205 | The request keeps its normalised fields and uses the final URL. The transport is `opt.fetch` when it is given, and the ambient `fetch` otherwise. Unless `init` overrides them, the method is upper-cased, the headers are the merged ones, and the body is sent exactly when the method is not `GET` or `HEAD`. Each `init` field overrides the computed one. A missing `opt` or `opt.init` (src/request-impl.ts:194) spreads no field. |
| RequestImpl.ComputedInit | src/request-impl.ts:150-186 | Whatever the letter case of the method: `get`, `GET`, `head` and `HEAD` carry no body, and `options` carries the normalised body. The method is upper-cased, the headers are the final header record, and there are no other keys. |
| RequestImpl.FetchHeaderPrecedence | src/request-impl.ts:152-169 | For any key that is not forced, `opt` headers beat the call's `header`. A key is present exactly when one of them has it. |
| RequestImpl.FetchBodyRule | src/request-impl.ts:180-186 | Without an `init.body` override, `GET` and `HEAD` send no body, `OPTIONS` sends the normalised body, and the decision ignores letter case. |
| RequestImpl.FetchReusesFields | src/request-impl.ts:113-148 | A request object keeps its fields, so a second `fetch` without arguments sends what the first call normalised, to the same URL. |
| Js.At | src/client.ts:44-50 | Reading past the end of `lastParts` gives undefined. Any other index gives that element. |
| Js.LastReversed | src/client.ts:44 | `slice(-3).toReversed()` has at most three elements, and element `i` is the `i`-th segment counted from the end. |
| Js.Reverse | src/client.ts:44 | `toReversed` keeps the length, and element `i` is the `i`-th element from the end. |
| Js.TakeLast | src/client.ts:44 | For `n > 0`, `slice(-n)` is the suffix of length `min(n, length)`. For `n = 0` it is the whole sequence, because `-0` is `0`. |
| Js.Join | src/client.ts:74 | Joining no segments gives `""`. Joining one gives that segment. A join starts with its first segment. |
| Js.JoinAppend | src/client.ts:96 | Joining one more segment adds exactly one separator and that segment at the end. |
| Js.StripDollar | src/client.ts:69 | Stripping a leading `$` removes exactly one, so `"$"` plus the result is the input. A segment without a leading `$` is unchanged. |
| Js.ToUpper | src/request-impl.ts:150 | Upper-casing keeps the length and maps each character on its own. |
| Js.ToLower | src/request-impl.ts:33 | Lower-casing keeps the length and maps each character on its own. |
| Js.CaseMappingForgetsCase | src/request-impl.ts:150 | Upper-casing or lower-casing a string gives the same result whether it was upper-cased or lower-cased first. |
| Js.Assign | src/request-impl.ts:152-157 | A key is in `{ ...a, ...b }` exactly when either record has it. It takes `b`'s value when `b` has the key, and `a`'s value otherwise. |
| Js.SpreadPrecedence | src/request-impl.ts:63-69 | In a spread of three records, the third beats the second, which beats the first. |

## Left out

- The JavaScript `Proxy` mechanics are replaced by explicit `Extend` and `Invoke` calls. The text returned by `proxyCallback.toString()` and the function object returned by `valueOf` are represented by the tags `SourceText` and `CallbackItself`.
- `src/utils` is not part of this model. Neither is hono's `serialize`, `JSON.stringify` or `URLSearchParams`. The helpers they provide are uninterpreted parameters, and nothing is assumed of them. This covers `mergePath`, `replaceUrlParam`, `removeIndexString`, `buildSearchParams`, `handleForm`, `upperMethodFirstLetter` and `deepMerge`.
- `new URL(result)` is not modelled. A `$url` result carries the URL string, and an invalid URL, which would throw, is not represented.
- `Headers` is not modelled. Header names are compared exactly, without its case-insensitivity. Header records are plain string maps, not `Headers` objects or arrays.
- The alova engine and the `fetch` transport are left out because they are external effects. They cover caching, naming, `send`, awaiting and the network. The model returns the call that would be made.
- A function in `options.headers` is awaited in the source, and that step is asynchronous. The model takes the resolved header record as input.
- The uniapp runtime check (`'uni' in globalThis`) is not modelled. Both of its branches pass the same `{ body, method, headers, ...init }`.
- JavaScript truthiness is modelled for `json`, the one argument field that may hold a scalar (`Types.Truthy`). For the object-valued fields `null` and `undefined` are both shown as absent. The model does not describe values of the wrong type, such as a number passed as `query`.
- RequestImpl.Apply: does not model a method the alova instance lacks. For `….$alova.$foo()` the source reads `ins.Foo`, which is undefined, so calling it throws and the promise from `apply` rejects with a `TypeError`. The model returns the engine call that would be made, because the instance's method set belongs to the engine, which is not part of this model.
- Overlapping `fetch` calls on one unsent request are not modelled. `fetch` writes the request's fields and then awaits a header function in `opt.headers` (src/request-impl.ts:152-157), so a second call made before the first resumes can change the fields the first one sends. `RequestImpl.FetchReusesFields` covers calls made one after another.
- JSON numbers are integers. Fractions and `NaN` cannot be written as `json` input, so the falsy `NaN` has no case in `Types.Truthy`.
- Only the first two call arguments are modelled, because the callback reads no others.
- `options ??= {}` in `src/client.ts` replaces a missing adapter option object with `{}` for later calls. No modelled field depends on this.
- Js.ToUpper: maps only the ASCII letters `a`–`z`, while `toUpperCase` also maps other Unicode letters. HTTP method names are ASCII.
- Js.ToLower: maps only the ASCII letters `A`–`Z`, for the same reason.
- `src/types.ts` is not part of this model. It holds compile-time types only and does nothing at run time.
- `examples/main.ts` is not part of this model. It is a demo script that does network I/O.

=== FILE: client.dfy ===
/**
  The path-chain interpreter of `hac`: property accesses accumulate string
  segments on a node (`createProxy`'s `get` trap), and a call hands the
  accumulated path and the call arguments to `proxyCallback`, which decides
  from the last three segments what the call means. The JavaScript `Proxy`
  is replaced by the explicit pair `Extend` / `Invoke`.
 */
module Client {
  import opened Js
  import opened Types
  import opened Utils
  import RequestImpl

  /** The segment that selects the managed (alova) backend. */
  const AlovaMarker := "$alova"
  /** The verb that asks for a URL instead of a request. */
  const UrlCommand := "url"
  /** The segment that asks a reflection call for the preceding segment's name. */
  const NameKey := "name"

  // ---------------------------------------------------------------------
  // createProxy

  /** A property key: a string, or a symbol (such as `Symbol.toPrimitive`). */
  datatype Key = StringKey(name: string) | SymbolKey(description: string)

  /** A proxy node: the segments accessed since the root. */
  datatype Node = Node(path: seq<string>)

  /** The node `hac` returns: `createProxy(proxyCallback, [])`. */
  const Root := Node([])

  /** Whether the `get` trap answers a key with a new node rather than `undefined`. */
  predicate Accessible(key: Key) {
    key.StringKey? && key.name != "then"
  }

  /**
    The `get` trap: a symbol key, or the key `then` (probed by promise
    resolution), yields `undefined`; any other string yields a fresh node
    whose path is the old one with that key appended.
   */
  function Extend(n: Node, key: Key): (r: Option<Node>)
    ensures r.Some? <==> Accessible(key)
    ensures r.Some? ==> r.value.path == n.path + [key.name]
  {
    if key.SymbolKey? || key.name == "then" then None
    else Some(Node(n.path + [key.name]))
  }

  /** The text of a key as a path segment. */
  function KeyText(key: Key): string {
    match key
    case StringKey(name) => name
    case SymbolKey(_) => ""
  }

  /** The segments a run of keys contributes, in order. */
  function Segments(keys: seq<Key>): (r: seq<string>)
    ensures |r| == |keys|
    ensures forall i :: 0 <= i < |keys| ==> r[i] == KeyText(keys[i])
  {
    seq(|keys|, i requires 0 <= i < |keys| => KeyText(keys[i]))
  }

  /** `n[k0][k1]...`: successive property accesses; reading a property of
      `undefined` fails, so one refused key ends the walk with `None`. */
  function Walk(n: Node, keys: seq<Key>): Option<Node>
    decreases |keys|
  {
    if |keys| == 0 then Some(n)
    else
      match Extend(n, keys[0])
      case None => None
      case Some(next) => Walk(next, keys[1..])
  }

  /**
    A walk succeeds exactly when every key is accessible, and then the node
    reached holds the starting path followed by exactly those keys. The
    starting node is a value and is never changed, so two walks from the
    same node do not see each other's segments.
   */
  lemma {:induction false} WalkAccumulates(n: Node, keys: seq<Key>)
    ensures Walk(n, keys).Some? <==> forall i :: 0 <= i < |keys| ==> Accessible(keys[i])
    ensures Walk(n, keys).Some? ==> Walk(n, keys).value.path == n.path + Segments(keys)
    decreases |keys|
  {
    if |keys| > 0 {
      var tail := keys[1..];
      if Accessible(keys[0]) {
        var next := Node(n.path + [keys[0].name]);
        assert Walk(n, keys) == Walk(next, tail);
        WalkAccumulates(next, tail);
        SegmentsCons(keys);
        AllAccessibleCons(keys);
      }
    }
  }

  /** Every key of a non-empty run is accessible exactly when the first one
      and every later one are. */
  lemma AllAccessibleCons(keys: seq<Key>)
    requires |keys| > 0
    ensures (forall i :: 0 <= i < |keys| ==> Accessible(keys[i])) <==>
            Accessible(keys[0]) && (forall i :: 0 <= i < |keys[1..]| ==> Accessible(keys[1..][i]))
  {
    var tail := keys[1..];
    assert forall i :: 0 <= i < |tail| ==> tail[i] == keys[i + 1];
    if forall i :: 0 <= i < |tail| ==> Accessible(tail[i]) {
      if Accessible(keys[0]) {
        forall i | 0 <= i < |keys|
          ensures Accessible(keys[i])
        {
          if i > 0 {
            assert keys[i] == tail[i - 1];
          }
        }
      }
    }
  }

  /** The segments of a non-empty run of keys: the first key's, then the rest. */
  lemma SegmentsCons(keys: seq<Key>)
    requires |keys| > 0
    ensures Segments(keys) == [KeyText(keys[0])] + Segments(keys[1..])
  {
    var tail := keys[1..];
    assert forall i :: 0 <= i < |tail| ==> tail[i] == keys[i + 1];
  }

  /** The call arguments the callback reads: `args[0]` and `args[1]`. */
  datatype CallArgs = CallArgs(input: Option<RequestArgs>, config: Option<Config>)

  /** What the `apply` trap hands to the callback: `{ path, args }`. */
  datatype CallbackInput = CallbackInput(path: seq<string>, args: CallArgs)

  /** The `apply` trap: calling a node. */
  function Invoke(n: Node, args: CallArgs): CallbackInput {
    CallbackInput(n.path, args)
  }

  /** Calling the node reached from the root by accessible keys hands the
      callback exactly those keys as the path, and the call's arguments. */
  lemma InvokeSeesWholeChain(keys: seq<Key>, args: CallArgs)
    requires forall i :: 0 <= i < |keys| ==> Accessible(keys[i])
    ensures Walk(Root, keys).Some?
    ensures Invoke(Walk(Root, keys).value, args) == CallbackInput(Segments(keys), args)
  {
    WalkAccumulates(Root, keys);
  }

  // ---------------------------------------------------------------------
  // proxyCallback

  /** The adapter's fixed inputs: the alova instance's `baseURL` (`""` when
      unset) and the `options` given to `hac`. */
  datatype Adapter = Adapter(baseURL: string, options: Option<Config>)

  /** What a reflection call returns: the callback's source text
      (`toString`) or the callback itself (`valueOf`). */
  datatype Reflection = SourceText | CallbackItself

  /** Everything a call on a node can produce. */
  datatype Outcome =
    | Name(name: string)
    | SelfDesc(reflection: Reflection)
    | Url(href: string)
    | Managed(engineCall: RequestImpl.EngineCall)
    | Fetch(fetchCall: RequestImpl.FetchCall)
    | Uncalled(request: RequestImpl.ClientRequest)

  predicate IsReflection(segment: string) {
    segment == "toString" || segment == "valueOf"
  }

  /**
    The verb-marker step: when the last segment starts with `$` it is popped
    and the method is that segment without its one leading `$`; otherwise
    the path stays whole and the method is empty.
   */
  function PopVerb(parts: seq<string>): (r: (seq<string>, string))
    ensures |parts| > 0 && StartsWithDollar(parts[|parts| - 1]) ==> r.0 + ["$" + r.1] == parts
    ensures !(|parts| > 0 && StartsWithDollar(parts[|parts| - 1])) ==> r.0 == parts && r.1 == ""
  {
    if |parts| > 0 && StartsWithDollar(parts[|parts| - 1]) then
      (parts[..|parts| - 1], StripDollar(parts[|parts| - 1]))
    else
      (parts, "")
  }

  /** `alova.options.baseURL || '/'` */
  function BaseUrl(adapter: Adapter): (r: string)
    ensures r != ""
    ensures adapter.baseURL != "" ==> r == adapter.baseURL
    ensures adapter.baseURL == "" ==> r == "/"
  {
    if adapter.baseURL == "" then "/" else adapter.baseURL
  }

  /** The `$url` result before `new URL`: params substituted when `param` is
      given, then `?` and the query appended when `query` is given. */
  function UrlWithArgs(u: Helpers, url: string, input: Option<RequestArgs>): (r: string)
    ensures input.None? || (input.value.param.None? && input.value.query.None?) ==> r == url
    ensures input.Some? && input.value.query.None? && input.value.param.Some? ==>
              r == u.replaceUrlParam(url, input.value.param.value)
    ensures input.Some? && input.value.query.Some? ==>
              var q := u.searchParams(input.value.query.value);
              var base := if input.value.param.Some? then u.replaceUrlParam(url, input.value.param.value) else url;
              |q| + 1 <= |r| && r[..|r| - |q| - 1] == base && r[|r| - |q| - 1] == '?' && r[|r| - |q|..] == q
  {
    if input.None? then url
    else
      var a := input.value;
      var withParams := if a.param.Some? then u.replaceUrlParam(url, a.param.value) else url;
      if a.query.Some? then withParams + "?" + u.searchParams(a.query.value) else withParams
  }

  /** The path ends in `name.toString` or `name.valueOf`. */
  predicate AsksName(path: seq<string>) {
    |path| >= 2 && IsReflection(path[|path| - 1]) && path[|path| - 2] == NameKey
  }

  /** The path ends in `toString` or `valueOf`. */
  predicate EndsInReflection(path: seq<string>) {
    |path| > 0 && IsReflection(path[|path| - 1])
  }

  /** The path ends in a verb marker with a non-empty method. */
  predicate HasVerb(path: seq<string>) {
    |path| > 0 && StartsWithDollar(path[|path| - 1]) && |path[|path| - 1]| > 1
  }

  /** The path ends in `$url`. */
  predicate AsksUrl(path: seq<string>) {
    |path| > 0 && path[|path| - 1] == "$" + UrlCommand
  }

  /** The path's second-to-last segment is the managed-backend marker. */
  predicate UnderAlova(path: seq<string>) {
    |path| >= 2 && path[|path| - 2] == AlovaMarker
  }

  /** The decision `proxyCallback` takes, with the segments each branch goes on to use. */
  datatype Route =
    | AskName(name: string)
    | Reflect(reflection: Reflection)
    | ToUrl(rest: seq<string>)
    | ToEngine(enginePath: seq<string>, verb: string)
    | ToFetch(rest: seq<string>, verb: string)
    | NoVerb(rest: seq<string>)

  /** `parts.slice(-3).toReversed()` read at 0, 1, 2: the last, second-to-last
      and third-to-last segments, each undefined when the path is too short. */
  lemma LastPartsAt(parts: seq<string>)
    ensures At(LastReversed(parts, 3), 0) == if |parts| > 0 then Some(parts[|parts| - 1]) else None
    ensures At(LastReversed(parts, 3), 1) == if |parts| > 1 then Some(parts[|parts| - 2]) else None
    ensures At(LastReversed(parts, 3), 2) == if |parts| > 2 then Some(parts[|parts| - 3]) else None
  {
  }

  /**
    The decision part of `proxyCallback`, read off the last three segments
    (newest first) as the source does: reflection first, then the verb
    marker is popped, then `$url`, then `$alova` (the ORIGINAL second-to-last
    segment) with a non-empty method, then any other method, else none.
    The contract states each branch directly on the path.
   */
  function Classify(parts: seq<string>): (r: Route)
    ensures r.AskName? <==> AsksName(parts)
    ensures r.AskName? ==> r.name == if |parts| >= 3 then parts[|parts| - 3] else ""
    ensures r.Reflect? <==> EndsInReflection(parts) && !AsksName(parts)
    ensures r.Reflect? ==> (r.reflection == SourceText <==> parts[|parts| - 1] == "toString")
    ensures r.ToUrl? <==> AsksUrl(parts)
    ensures r.ToUrl? ==> r.rest == parts[..|parts| - 1]
    ensures r.ToEngine? <==> HasVerb(parts) && UnderAlova(parts) && !AsksUrl(parts)
    ensures r.ToEngine? ==> r.enginePath == parts[..|parts| - 2] && "$" + r.verb == parts[|parts| - 1]
    ensures r.ToFetch? <==> HasVerb(parts) && !UnderAlova(parts) && !AsksUrl(parts)
    ensures r.ToFetch? ==> r.rest + ["$" + r.verb] == parts && r.verb != ""
    ensures r.NoVerb? <==> !HasVerb(parts) && !EndsInReflection(parts)
    ensures r.NoVerb? ==> r.rest == if |parts| > 0 && parts[|parts| - 1] == "$" then parts[..|parts| - 1] else parts
  {
    var lastParts := LastReversed(parts, 3);
    LastPartsAt(parts);
    var last, penultimate := At(lastParts, 0), At(lastParts, 1);
    if last == Some("toString") then
      if penultimate == Some(NameKey) then AskName(At(lastParts, 2).GetOr("")) else Reflect(SourceText)
    else if last == Some("valueOf") then
      if penultimate == Some(NameKey) then AskName(At(lastParts, 2).GetOr("")) else Reflect(CallbackItself)
    else
      var (rest, verb) := PopVerb(parts);
      if verb == UrlCommand then ToUrl(rest)
      else if penultimate == Some(AlovaMarker) && verb != "" then ToEngine(rest[..|rest| - 1], verb)
      else if verb != "" then ToFetch(rest, verb)
      else NoVerb(rest)
  }

  /**
    `proxyCallback`: carries out the decision of `Classify`. A URL and the
    direct-fetch request use the base URL merged with the remaining segments
    joined by `/`; the managed request uses the segments before `$alova`
    joined by `/`, unmerged, with the method through `upperMethodFirstLetter`;
    the direct-fetch request gets the adapter options deep-merged with the
    call's second argument. No request is built unless the path ended in a
    verb marker, and a reflection name at the end always wins.
   */
  function ProxyCallback(u: Helpers, adapter: Adapter, opts: CallbackInput): (r: Outcome)
    ensures EndsInReflection(opts.path) ==> r.Name? || r.SelfDesc?
    ensures r.Url? || r.Managed? || r.Fetch? ==> |opts.path| > 0 && StartsWithDollar(opts.path[|opts.path| - 1])
    ensures r.Url? <==> AsksUrl(opts.path)
    ensures r.Managed? <==> HasVerb(opts.path) && UnderAlova(opts.path) && !AsksUrl(opts.path)
    ensures r.Fetch? <==> HasVerb(opts.path) && !UnderAlova(opts.path) && !AsksUrl(opts.path)
    ensures r.Uncalled? ==> r.request.verb == "" && r.request.payload == RequestImpl.Unset
  {
    var input := opts.args.input;
    match Classify(opts.path)
    case AskName(name) => Name(name)
    case Reflect(reflection) => SelfDesc(reflection)
    case ToUrl(rest) =>
      Url(UrlWithArgs(u, u.mergePath(BaseUrl(adapter), Join(rest, "/")), input))
    case ToEngine(enginePath, verb) =>
      var req := RequestImpl.NewAlovaRequest(u, Join(enginePath, "/"), u.upperMethodFirstLetter(verb));
      Managed(RequestImpl.Apply(u, req, input, opts.args.config, adapter.options))
    case ToFetch(rest, verb) =>
      var req := RequestImpl.NewClientRequest(u.mergePath(BaseUrl(adapter), Join(rest, "/")), verb);
      var merged := u.deepMerge(adapter.options.GetOr(EmptyConfig), opts.args.config.GetOr(EmptyConfig));
      Fetch(RequestImpl.Fetch(u, req, input, Some(merged)).call)
    case NoVerb(rest) =>
      Uncalled(RequestImpl.NewClientRequest(u.mergePath(BaseUrl(adapter), Join(rest, "/")), ""))
  }

  /** A call on a node: the `apply` trap feeding `proxyCallback`. */
  function Call(u: Helpers, adapter: Adapter, n: Node, args: CallArgs): Outcome {
    ProxyCallback(u, adapter, Invoke(n, args))
  }

  /** Calling a chain built from the root decides on exactly the accessed
      keys, so every dispatch lemma below applies to a client call. */
  lemma CallSeesWholeChain(u: Helpers, adapter: Adapter, keys: seq<Key>, args: CallArgs)
    requires forall i :: 0 <= i < |keys| ==> Accessible(keys[i])
    ensures Walk(Root, keys).Some?
    ensures Call(u, adapter, Walk(Root, keys).value, args) == ProxyCallback(u, adapter, CallbackInput(Segments(keys), args))
  {
    InvokeSeesWholeChain(keys, args);
  }

  /**
    Managed dispatch, in full: for `….$alova.$verb` (verb not `url`) the
    engine request gets the segments before `$alova` joined by `/`, the
    verb after `$` through `upperMethodFirstLetter`, the call's first two
    arguments and the adapter options.
   */
  lemma ManagedDispatch(u: Helpers, adapter: Adapter, path: seq<string>, args: CallArgs)
    requires HasVerb(path) && UnderAlova(path) && !AsksUrl(path)
    ensures var r := ProxyCallback(u, adapter, CallbackInput(path, args));
            var req := RequestImpl.NewAlovaRequest(u, Join(path[..|path| - 2], "/"), u.upperMethodFirstLetter(path[|path| - 1][1..]));
            r == Managed(RequestImpl.Apply(u, req, args.input, args.config, adapter.options))
  {
    var route := Classify(path);
    assert "$" + route.verb == path[|path| - 1];
    assert route.verb == path[|path| - 1][1..];
  }

  /**
    Direct fetch, in full: for a verb marker other than `$url` not under
    `$alova`, the request goes to the base URL merged with the other
    segments, with the method as written after `$`, and with the adapter
    options deep-merged with the call's second argument.
   */
  lemma FetchDispatch(u: Helpers, adapter: Adapter, path: seq<string>, args: CallArgs)
    requires HasVerb(path) && !UnderAlova(path) && !AsksUrl(path)
    ensures var r := ProxyCallback(u, adapter, CallbackInput(path, args));
            var url := u.mergePath(BaseUrl(adapter), Join(path[..|path| - 1], "/"));
            var merged := u.deepMerge(adapter.options.GetOr(EmptyConfig), args.config.GetOr(EmptyConfig));
            r == Fetch(RequestImpl.Fetch(u, RequestImpl.NewClientRequest(url, path[|path| - 1][1..]), args.input, Some(merged)).call)
  {
    var route := Classify(path);
    var last := path[|path| - 1];
    assert route.rest + ["$" + route.verb] == path;
    assert route.rest == path[..|path| - 1];
    assert "$" + route.verb == last;
    assert route.verb == last[1..];
  }

  /**
    `$url`, in full: a path ending in `$url` yields the base URL merged with
    the other segments joined by `/`, then params and query from the first
    argument, whatever segment precedes `$url` (`$alova` included).
   */
  lemma UrlDispatch(u: Helpers, adapter: Adapter, path: seq<string>, args: CallArgs)
    requires AsksUrl(path)
    ensures ProxyCallback(u, adapter, CallbackInput(path, args))
            == Url(UrlWithArgs(u, u.mergePath(BaseUrl(adapter), Join(path[..|path| - 1], "/")), args.input))
  {
  }

  /**
    No method, in full: the unsent request for the base URL merged with the
    path (a lone trailing `$` dropped), with method `""` and no fields set.
   */
  lemma UncalledDispatch(u: Helpers, adapter: Adapter, path: seq<string>, args: CallArgs)
    requires !HasVerb(path) && !EndsInReflection(path)
    ensures var rest := if |path| > 0 && path[|path| - 1] == "$" then path[..|path| - 1] else path;
            ProxyCallback(u, adapter, CallbackInput(path, args))
            == Uncalled(RequestImpl.ClientRequest(u.mergePath(BaseUrl(adapter), Join(rest, "/")), "", RequestImpl.Unset))
  {
  }

  /**
    Name route, in full: `….name.toString()` or `….name.valueOf()` gives the
    segment before `name`, or `""` when there is none.
   */
  lemma NameDispatch(u: Helpers, adapter: Adapter, path: seq<string>, args: CallArgs)
    requires AsksName(path)
    ensures ProxyCallback(u, adapter, CallbackInput(path, args))
            == Name(if |path| >= 3 then path[|path| - 3] else "")
  {
  }

  /**
    Self-description route, in full: a final `toString` not after `name`
    gives the callback's source text, a final `valueOf` the callback itself.
   */
  lemma ReflectDispatch(u: Helpers, adapter: Adapter, path: seq<string>, args: CallArgs)
    requires EndsInReflection(path) && !AsksName(path)
    ensures ProxyCallback(u, adapter, CallbackInput(path, args))
            == SelfDesc(if path[|path| - 1] == "toString" then SourceText else CallbackItself)
  {
  }

  /** `client.users.name.toString()` is `"users"`. */
  lemma NameOfUsers(u: Helpers, adapter: Adapter, args: CallArgs)
    ensures ProxyCallback(u, adapter, CallbackInput(["users", "name", "toString"], args)) == Name("users")
  {
    var path := ["users", "name", "toString"];
    assert AsksName(path);
  }

  /** `client.users[':id'].$alova.$get(...)` asks the engine for `users/:id`
      with the verb `get` normalised. */
  lemma ManagedUsersById(u: Helpers, adapter: Adapter, args: CallArgs)
    ensures var r := ProxyCallback(u, adapter, CallbackInput(["users", ":id", "$alova", "$get"], args));
            var req := RequestImpl.NewAlovaRequest(u, "users/:id", u.upperMethodFirstLetter("get"));
            r == Managed(RequestImpl.Apply(u, req, args.input, args.config, adapter.options))
  {
    var path := ["users", ":id", "$alova", "$get"];
    assert path[3][1] != ("$" + UrlCommand)[1];
    assert HasVerb(path) && UnderAlova(path) && !AsksUrl(path);
    assert path[..2] == ["users", ":id"] && path[3][1..] == "get";
    assert Classify(path) == ToEngine(["users", ":id"], "get");
    assert Join(["users", ":id"], "/") == "users/:id" by {
      assert ["users", ":id"][1..] == [":id"];
    }
  }
}

=== FILE: js.dfy ===
/**
  The JavaScript built-ins the adapter leans on, stated on their ordinary
  behaviour: optional values (`undefined`), `Array.prototype.join`, the
  reversed tail `slice(-n).toReversed()`, ASCII case mapping for HTTP verbs,
  the `/^\$/` verb-marker test, and object spread over string records.
 */
module Js {

  /** A value that may be `undefined` (or, for an argument field, falsy). */
  datatype Option<+T> = None | Some(value: T) {

    /** `x ?? d` / `x || d` on a value that is either absent or usable. */
    function GetOr(default: T): T {
      match this
      case Some(v) => v
      case None => default
    }
  }

  /** `s[i]` read as JavaScript reads it: `undefined` past the end. */
  function At<T>(s: seq<T>, i: nat): (r: Option<T>)
    ensures r.Some? <==> i < |s|
    ensures i < |s| ==> r.value == s[i]
  {
    if i < |s| then Some(s[i]) else None
  }

  // ---------------------------------------------------------------------
  // Array.prototype.join

  /** `segments.join(sep)`: the segments in order, `sep` between neighbours. */
  function Join(segments: seq<string>, sep: string): (r: string)
    ensures |segments| == 0 ==> r == ""
    ensures |segments| == 1 ==> r == segments[0]
    ensures |segments| > 0 ==> |segments[0]| <= |r| && r[..|segments[0]|] == segments[0]
  {
    if |segments| == 0 then ""
    else if |segments| == 1 then segments[0]
    else segments[0] + sep + Join(segments[1..], sep)
  }

  /** Joining one more segment puts exactly one separator before it. */
  lemma {:induction false} JoinAppend(segments: seq<string>, sep: string, last: string)
    requires |segments| > 0
    ensures Join(segments + [last], sep) == Join(segments, sep) + sep + last
    decreases |segments|
  {
    var s := segments + [last];
    if |segments| == 1 {
      assert s[1..] == [last];
    } else {
      assert s[1..] == segments[1..] + [last];
      JoinAppend(segments[1..], sep, last);
    }
  }

  // ---------------------------------------------------------------------
  // Array.prototype.slice(-n).toReversed()

  /** `s.toReversed()` */
  function Reverse<T>(s: seq<T>): (r: seq<T>)
    ensures |r| == |s|
    ensures forall i :: 0 <= i < |s| ==> r[i] == s[|s| - 1 - i]
  {
    if |s| == 0 then [] else Reverse(s[1..]) + [s[0]]
  }

  /** `s.slice(-n)`: the last `n` elements, or all of them if fewer. As in
      JavaScript, `-0` is `0`, so `slice(-0)` is the whole of `s`. */
  function TakeLast<T>(s: seq<T>, n: nat): (r: seq<T>)
    ensures |r| == if n == 0 || |s| < n then |s| else n
    ensures r == s[|s| - |r|..]
  {
    if n == 0 || |s| < n then s else s[|s| - n..]
  }

  /** `s.slice(-n).toReversed()`: the last `n` elements, newest first. */
  function LastReversed<T>(s: seq<T>, n: nat): (r: seq<T>)
    ensures |r| == if n == 0 || |s| < n then |s| else n
    ensures forall i :: 0 <= i < |r| ==> r[i] == s[|s| - 1 - i]
  {
    Reverse(TakeLast(s, n))
  }

  // ---------------------------------------------------------------------
  // String.prototype.toUpperCase / toLowerCase, on the ASCII letters

  function UpperChar(c: char): (r: char)
    ensures 'a' <= c <= 'z' ==> r as int == c as int - 32
    ensures !('a' <= c <= 'z') ==> r == c
  {
    if 'a' <= c <= 'z' then (c as int - 32) as char else c
  }

  function LowerChar(c: char): (r: char)
    ensures 'A' <= c <= 'Z' ==> r as int == c as int + 32
    ensures !('A' <= c <= 'Z') ==> r == c
  {
    if 'A' <= c <= 'Z' then (c as int + 32) as char else c
  }

  /** `s.toUpperCase()`: every character mapped on its own, length kept. */
  function ToUpper(s: string): (r: string)
    ensures |r| == |s|
    ensures forall i :: 0 <= i < |s| ==> r[i] == UpperChar(s[i])
  {
    if |s| == 0 then "" else [UpperChar(s[0])] + ToUpper(s[1..])
  }

  /** `s.toLowerCase()`: every character mapped on its own, length kept. */
  function ToLower(s: string): (r: string)
    ensures |r| == |s|
    ensures forall i :: 0 <= i < |s| ==> r[i] == LowerChar(s[i])
  {
    if |s| == 0 then "" else [LowerChar(s[0])] + ToLower(s[1..])
  }

  /** Case mapping forgets how a verb was cased before: `"gEt"`, `"GET"` and
      `"get"` all upper-case to `"GET"` and lower-case to `"get"`. */
  lemma {:induction false} CaseMappingForgetsCase(s: string)
    ensures ToUpper(ToLower(s)) == ToUpper(s)
    ensures ToUpper(ToUpper(s)) == ToUpper(s)
    ensures ToLower(ToUpper(s)) == ToLower(s)
    ensures ToLower(ToLower(s)) == ToLower(s)
    decreases |s|
  {
    if |s| > 0 {
      CaseMappingForgetsCase(s[1..]);
      assert ToLower(s)[1..] == ToLower(s[1..]);
      assert ToUpper(s)[1..] == ToUpper(s[1..]);
    }
  }

  // ---------------------------------------------------------------------
  // The verb-marker sentinel

  /** `/^\$/.test(s)` */
  predicate StartsWithDollar(s: string) {
    |s| > 0 && s[0] == '$'
  }

  /** `s.replace(/^\$/, '')`: one leading `$` removed, if there is one. */
  function StripDollar(s: string): (r: string)
    ensures StartsWithDollar(s) ==> "$" + r == s
    ensures !StartsWithDollar(s) ==> r == s
  {
    if StartsWithDollar(s) then s[1..] else s
  }

  // ---------------------------------------------------------------------
  // Object spread over string records

  /** `{ ...a, ...b }`: a key is in the result exactly when it is in either
      record, and takes `b`'s value when `b` has it, `a`'s otherwise. */
  function Assign(a: map<string, string>, b: map<string, string>): (r: map<string, string>)
    ensures forall k :: k in r <==> k in a || k in b
    ensures forall k :: k in b ==> r[k] == b[k]
    ensures forall k :: k in a && k !in b ==> r[k] == a[k]
  {
    a + b
  }

  /** The three-layer spread `{ ...a, ...b, ...c }`: `c` beats `b` beats `a`. */
  lemma SpreadPrecedence(a: map<string, string>, b: map<string, string>, c: map<string, string>, k: string)
    ensures k in Assign(Assign(a, b), c) <==> k in a || k in b || k in c
    ensures k in c ==> Assign(Assign(a, b), c)[k] == c[k]
    ensures k !in c && k in b ==> Assign(Assign(a, b), c)[k] == b[k]
    ensures k !in c && k !in b && k in a ==> Assign(Assign(a, b), c)[k] == a[k]
  {
  }
}

=== FILE: request_impl.dfy ===
/**
  The two request builders: `AlovaRequestImpl` (managed dispatch through the
  alova engine) and `ClientRequestImpl` (direct dispatch through `fetch`).
  Both keep the same per-request fields, filled from the call arguments by
  the same rules; they differ in how headers are layered, how the method is
  spelled and which methods carry a body. Instead of calling the engine or
  the transport, each builder returns a description of the call it makes.
 */
module RequestImpl {
  import opened Js
  import opened Types
  import opened Utils

  const CookieHeader := "Cookie"
  const ContentTypeHeader := "Content-Type"
  const JsonContentType := "application/json"

  /**
    The fields both request classes fill from the call arguments:
    `queryParams` (kept already serialised), `pathParams`, `rBody`, `cType`.
   */
  datatype Payload = Payload(
    query: Option<string>,
    pathParams: map<string, string>,
    body: Body,
    contentType: Option<string>)

  /** The fields' initial values: no query, no path params, no body, no content type. */
  const Unset := Payload(None, map[], NoBody, None)

  /**
    The argument-normalising block at the top of `apply` and `fetch`: each
    given field overwrites its slot, `form` first and `json` after it, so a
    JSON body replaces a form body; fields not given keep their old value.
   */
  function Absorb(u: Helpers, p: Payload, args: Option<RequestArgs>): (r: Payload)
    ensures args.None? ==> r == p
    ensures args.Some? ==> r.query == (if args.value.query.Some? then Some(u.searchParams(args.value.query.value)) else p.query)
    ensures args.Some? ==> r.pathParams == args.value.param.GetOr(p.pathParams)
    ensures args.Some? && JsonGiven(args.value) ==>
              r.body == JsonBody(u.stringify(args.value.json.value)) && r.contentType == Some(JsonContentType)
    ensures args.Some? && !JsonGiven(args.value) && args.value.form.Some? ==>
              r.body == FormBody(u.handleForm(args.value.form.value)) && r.contentType == p.contentType
    ensures args.Some? && !JsonGiven(args.value) && args.value.form.None? ==>
              r.body == p.body && r.contentType == p.contentType
  {
    if args.None? then p
    else
      var a := args.value;
      var query := if a.query.Some? then Some(u.searchParams(a.query.value)) else p.query;
      var formed := if a.form.Some? then FormBody(u.handleForm(a.form.value)) else p.body;
      var body := if JsonGiven(a) then JsonBody(u.stringify(a.json.value)) else formed;
      var contentType := if JsonGiven(a) then Some(JsonContentType) else p.contentType;
      var pathParams := if a.param.Some? then a.param.value else p.pathParams;
      Payload(query, pathParams, body, contentType)
  }

  /** Given both `json` and `form`, the body is the JSON text and the content
      type is JSON: the later assignment wins. */
  lemma JsonOverridesForm(u: Helpers, p: Payload, a: RequestArgs)
    requires JsonGiven(a) && a.form.Some?
    ensures Absorb(u, p, Some(a)).body == JsonBody(u.stringify(a.json.value))
    ensures Absorb(u, p, Some(a)).body != FormBody(u.handleForm(a.form.value))
    ensures Absorb(u, p, Some(a)).contentType == Some(JsonContentType)
  {
  }

  /** A falsy `json` (`null`, `false`, `0`, `""`) is skipped: the result is
      the same as without the field. */
  lemma FalsyJsonIgnored(u: Helpers, p: Payload, a: RequestArgs)
    requires a.json.Some? && !Truthy(a.json.value)
    ensures Absorb(u, p, Some(a)) == Absorb(u, p, Some(a.(json := None)))
  {
  }

  /** On a fresh request, a content type is set exactly when a truthy `json`
      was given, and path params default to none. */
  lemma FreshPayload(u: Helpers, args: Option<RequestArgs>)
    ensures var r := Absorb(u, Unset, args);
            (r.contentType.Some? <==> args.Some? && JsonGiven(args.value)) &&
            (r.contentType.Some? ==> r.contentType.value == JsonContentType) &&
            (r.body.NoBody? <==> args.None? || (!JsonGiven(args.value) && args.value.form.None?)) &&
            (r.query.Some? <==> args.Some? && args.value.query.Some?) &&
            (!(args.Some? && args.value.param.Some?) ==> r.pathParams == map[])
  {
  }

  // ---------------------------------------------------------------------
  // Cookie and forced headers

  /** Each cookie entry run through `serialize(key, value, { path: '/' })`, in order. */
  function SerializedCookies(u: Helpers, entries: seq<(string, string)>): (r: seq<string>)
    ensures |r| == |entries|
    ensures forall i :: 0 <= i < |entries| ==> r[i] == u.serializeCookie(entries[i].0, entries[i].1)
  {
    if |entries| == 0 then []
    else SerializedCookies(u, entries[..|entries| - 1]) + [u.serializeCookie(entries[|entries| - 1].0, entries[|entries| - 1].1)]
  }

  /** `cookies.join(',')`: the `Cookie` header value. */
  function CookieValue(u: Helpers, entries: seq<(string, string)>): (r: string)
    ensures |entries| == 0 ==> r == ""
    ensures |entries| == 1 ==> r == u.serializeCookie(entries[0].0, entries[0].1)
  {
    Join(SerializedCookies(u, entries), ",")
  }

  /** One more cookie entry adds one `,` and its serialised form at the end. */
  lemma CookieValueAppend(u: Helpers, entries: seq<(string, string)>, key: string, value: string)
    requires |entries| > 0
    ensures CookieValue(u, entries + [(key, value)]) == CookieValue(u, entries) + "," + u.serializeCookie(key, value)
  {
    var all := entries + [(key, value)];
    assert all[..|all| - 1] == entries;
    assert SerializedCookies(u, all) == SerializedCookies(u, entries) + [u.serializeCookie(key, value)];
    JoinAppend(SerializedCookies(u, entries), ",", u.serializeCookie(key, value));
  }

  /**
    The tail of the header block: after the merged header record is built,
    a given `cookie` overwrites `Cookie`, then a computed content type
    overwrites `Content-Type`. Every other key is the merged record's.
   */
  function ForceHeaders(u: Helpers, merged: map<string, string>, cookie: Option<seq<(string, string)>>, contentType: Option<string>)
    : (r: map<string, string>)
    ensures cookie.Some? ==> CookieHeader in r && r[CookieHeader] == CookieValue(u, cookie.value)
    ensures contentType.Some? ==> ContentTypeHeader in r && r[ContentTypeHeader] == contentType.value
    ensures cookie.None? ==> (CookieHeader in r <==> CookieHeader in merged)
    ensures cookie.None? && CookieHeader in merged ==> r[CookieHeader] == merged[CookieHeader]
    ensures contentType.None? ==> (ContentTypeHeader in r <==> ContentTypeHeader in merged)
    ensures contentType.None? && ContentTypeHeader in merged ==> r[ContentTypeHeader] == merged[ContentTypeHeader]
    ensures forall k :: k != CookieHeader && k != ContentTypeHeader ==> (k in r <==> k in merged)
    ensures forall k :: k in merged && k != CookieHeader && k != ContentTypeHeader ==> r[k] == merged[k]
  {
    var withCookie := if cookie.Some? then merged[CookieHeader := CookieValue(u, cookie.value)] else merged;
    if contentType.Some? then withCookie[ContentTypeHeader := contentType.value] else withCookie
  }

  /** No merged header source can change a forced `Cookie` or `Content-Type`. */
  lemma ForcedHeadersIgnoreSources(u: Helpers, m1: map<string, string>, m2: map<string, string>,
                                   cookie: Option<seq<(string, string)>>, contentType: Option<string>)
    ensures cookie.Some? ==> ForceHeaders(u, m1, cookie, contentType)[CookieHeader] == ForceHeaders(u, m2, cookie, contentType)[CookieHeader]
    ensures contentType.Some? ==>
              ForceHeaders(u, m1, cookie, contentType)[ContentTypeHeader] == ForceHeaders(u, m2, cookie, contentType)[ContentTypeHeader]
  {
  }

  // ---------------------------------------------------------------------
  // URL finalisation

  /**
    The outgoing URL: the index segment stripped, path params substituted,
    then `?` and the serialised query appended when a query was given.
   */
  function FinalUrl(u: Helpers, url: string, p: Payload): (r: string)
    ensures var path := u.replaceUrlParam(u.removeIndexString(url), p.pathParams);
            && |path| <= |r|
            && r[..|path|] == path
            && (p.query.None? ==> |r| == |path|)
            && (p.query.Some? ==> |r| == |path| + 1 + |p.query.value| && r[|path|] == '?' && r[|path| + 1..] == p.query.value)
  {
    var path := u.replaceUrlParam(u.removeIndexString(url), p.pathParams);
    if p.query.Some? then path + "?" + p.query.value else path
  }

  // ---------------------------------------------------------------------
  // AlovaRequestImpl

  /** An `AlovaRequestImpl`: its path, normalised method name and fields. */
  datatype AlovaRequest = AlovaRequest(url: string, verb: string, payload: Payload)

  /** The engine methods called without a body argument. */
  const BodylessAlovaMethods: set<string> := {"Get", "Head", "Options"}

  /** `new AlovaRequestImpl(url, method, ins)`: the method lower-cased and then
      given to `upperMethodFirstLetter`; every field unset. */
  function NewAlovaRequest(u: Helpers, url: string, verb: string): (r: AlovaRequest)
    ensures r.url == url && r.payload == Unset
    ensures r.verb == u.upperMethodFirstLetter(ToLower(verb))
  {
    AlovaRequest(url, u.upperMethodFirstLetter(ToLower(verb)), Unset)
  }

  /** The engine method picked does not depend on how the verb was cased. */
  lemma AlovaMethodIgnoresCase(u: Helpers, url: string, m1: string, m2: string)
    requires ToLower(m1) == ToLower(m2)
    ensures NewAlovaRequest(u, url, m1).verb == NewAlovaRequest(u, url, m2).verb
    ensures NewAlovaRequest(u, url, ToUpper(m1)).verb == NewAlovaRequest(u, url, m1).verb
  {
    CaseMappingForgetsCase(m1);
  }

  /** The call made on the engine: `ins[method](url, body, config)` when
      `body` is `Some`, `ins[method](url, config)` when it is `None`. */
  datatype EngineCall = EngineCall(verb: string, url: string, body: Option<Body>, config: Config)

  /** `apply`'s header record before the forced headers:
      `{ ...args?.header, ...options?.headers, ...config?.headers }`. */
  function AlovaMergedHeaders(args: Option<RequestArgs>, config: Option<Config>, options: Option<Config>)
    : map<string, string>
  {
    Assign(Assign(if args.Some? then args.value.header.GetOr(map[]) else map[], HeadersOf(options)), HeadersOf(config))
  }

  /** `apply`'s final header record. */
  function AlovaHeaderValues(u: Helpers, p: Payload, args: Option<RequestArgs>, config: Option<Config>, options: Option<Config>)
    : map<string, string>
  {
    ForceHeaders(u, AlovaMergedHeaders(args, config, options),
                 if args.Some? then args.value.cookie else None, p.contentType)
  }

  /**
    `AlovaRequestImpl.apply(args, config, options)`: normalise the arguments,
    build the headers and the URL, and call the engine method, passing the
    body only for methods other than `Get`, `Head` and `Options`.
   */
  function Apply(u: Helpers, req: AlovaRequest, args: Option<RequestArgs>, config: Option<Config>, options: Option<Config>)
    : (r: EngineCall)
    ensures var p := Absorb(u, req.payload, args);
            && r.verb == req.verb
            && r.url == FinalUrl(u, req.url, p)
            && (r.body.Some? <==> req.verb !in BodylessAlovaMethods)
            && (r.body.Some? ==> r.body.value == p.body)
            && r.config == u.deepMerge(config.GetOr(EmptyConfig), HeadersOnly(AlovaHeaderValues(u, p, args, config, options)))
  {
    var p := Absorb(u, req.payload, args);
    var headers := AlovaHeaderValues(u, p, args, config, options);
    var url := FinalUrl(u, req.url, p);
    var finalConfig := u.deepMerge(config.GetOr(EmptyConfig), HeadersOnly(headers));
    var setBody := req.verb != "Get" && req.verb != "Head" && req.verb != "Options";
    EngineCall(req.verb, url, if setBody then Some(p.body) else None, finalConfig)
  }

  /**
    Header precedence in `apply`: a `Cookie` or `Content-Type` that was forced
    wins; otherwise the call config's headers beat the adapter options'
    headers, which beat the call's `header` argument.
   */
  lemma AlovaHeaderPrecedence(u: Helpers, p: Payload, a: RequestArgs, config: Option<Config>, options: Option<Config>, k: string)
    requires !(k == CookieHeader && a.cookie.Some?) && !(k == ContentTypeHeader && p.contentType.Some?)
    ensures var h := AlovaHeaderValues(u, p, Some(a), config, options);
            var header := a.header.GetOr(map[]);
            && (k in h <==> k in header || k in HeadersOf(options) || k in HeadersOf(config))
            && (k in HeadersOf(config) ==> h[k] == HeadersOf(config)[k])
            && (k !in HeadersOf(config) && k in HeadersOf(options) ==> h[k] == HeadersOf(options)[k])
            && (k !in HeadersOf(config) && k !in HeadersOf(options) && k in header ==> h[k] == header[k])
  {
    SpreadPrecedence(a.header.GetOr(map[]), HeadersOf(options), HeadersOf(config), k);
  }

  // ---------------------------------------------------------------------
  // ClientRequestImpl

  /** A `ClientRequestImpl`: its URL, method as given, and fields. The fields
      persist on the object, so a second `fetch` sees what the first one set. */
  datatype ClientRequest = ClientRequest(url: string, verb: string, payload: Payload)

  /** `new ClientRequestImpl(url, verb)` */
  function NewClientRequest(url: string, verb: string): (r: ClientRequest)
    ensures r.url == url && r.verb == verb && r.payload == Unset
  {
    ClientRequest(url, verb, Unset)
  }

  /** Which transport is called: `opt.fetch` when given, else the ambient `fetch`. */
  datatype Transport = AmbientFetch | CustomFetch(name: string)

  /** The `init` object handed to the transport (`verb` is its `method`). */
  datatype RequestInit = RequestInit(body: Body, verb: string, headers: map<string, string>, rest: map<string, string>)

  /** The transport call `(opt?.fetch || fetch)(url, init)`. */
  datatype FetchCall = FetchCall(transport: Transport, url: string, init: RequestInit)

  /** What `fetch` leaves behind: the request object with its updated fields,
      and the transport call it made. */
  datatype Fetched = Fetched(request: ClientRequest, call: FetchCall)

  /** Whether the direct-fetch path sends the body for this method. */
  predicate FetchSendsBody(verb: string) {
    var m := ToUpper(verb);
    m != "GET" && m != "HEAD"
  }

  /** `fetch`'s final header record; before the forced headers it is
      `{ ...args?.header, ...opt?.headers }`. */
  function FetchHeaderValues(u: Helpers, p: Payload, args: Option<RequestArgs>, opt: Option<Config>): map<string, string>
  {
    ForceHeaders(u, Assign(if args.Some? then args.value.header.GetOr(map[]) else map[], HeadersOf(opt)),
                 if args.Some? then args.value.cookie else None, p.contentType)
  }

  /** `...opt?.init`: an absent `opt` or `init` spreads no field. */
  function InitOf(opt: Option<Config>): (r: InitOverride)
    ensures opt.Some? && opt.value.init.Some? ==> r == opt.value.init.value
    ensures !(opt.Some? && opt.value.init.Some?) ==> r.body.None? && r.verb.None? && r.headers.None? && r.rest == map[]
  {
    if opt.Some? && opt.value.init.Some? then opt.value.init.value else InitOverride(None, None, None, map[])
  }

  /** `{ ...computed, ...init }`: every field `init` gives replaces the computed one. */
  function Spread(computed: RequestInit, init: InitOverride): (r: RequestInit)
    ensures init.body.Some? ==> r.body == init.body.value
    ensures init.body.None? ==> r.body == computed.body
    ensures init.verb.Some? ==> r.verb == init.verb.value
    ensures init.verb.None? ==> r.verb == computed.verb
    ensures init.headers.Some? ==> r.headers == init.headers.value
    ensures init.headers.None? ==> r.headers == computed.headers
    ensures r.rest.Keys == computed.rest.Keys + init.rest.Keys
    ensures forall k :: k in init.rest ==> r.rest[k] == init.rest[k]
    ensures computed.rest == map[] ==> r.rest == init.rest
  {
    assert computed.rest == map[] ==> computed.rest + init.rest == init.rest;
    RequestInit(init.body.GetOr(computed.body), init.verb.GetOr(computed.verb),
                init.headers.GetOr(computed.headers), computed.rest + init.rest)
  }

  /**
    `ClientRequestImpl.fetch(args, opt)`: normalise the arguments into the
    request's fields, build headers and URL, upper-case the method, drop the
    body for `GET` and `HEAD`, and call the transport with
    `{ body, method, headers, ...opt.init }`. The two runtime branches of the
    source pass the same object, so they are one here.
   */
  function Fetch(u: Helpers, req: ClientRequest, args: Option<RequestArgs>, opt: Option<Config>): (r: Fetched)
    ensures r.request == req.(payload := Absorb(u, req.payload, args))
    ensures r.call.url == FinalUrl(u, req.url, r.request.payload)
    ensures r.call.transport.CustomFetch? <==> opt.Some? && opt.value.transport.Some?
    ensures opt.Some? && opt.value.transport.Some? ==> r.call.transport == CustomFetch(opt.value.transport.value)
    ensures InitOf(opt).body.None? ==>
              r.call.init.body == if FetchSendsBody(req.verb) then r.request.payload.body else NoBody
    ensures InitOf(opt).verb.None? ==> r.call.init.verb == ToUpper(req.verb)
    ensures InitOf(opt).headers.None? ==> r.call.init.headers == FetchHeaderValues(u, r.request.payload, args, opt)
    ensures InitOf(opt).body.Some? ==> r.call.init.body == InitOf(opt).body.value
    ensures InitOf(opt).verb.Some? ==> r.call.init.verb == InitOf(opt).verb.value
    ensures InitOf(opt).headers.Some? ==> r.call.init.headers == InitOf(opt).headers.value
    ensures r.call.init.rest == InitOf(opt).rest
  {
    var p := Absorb(u, req.payload, args);
    var url := FinalUrl(u, req.url, p);
    var transport := if opt.Some? && opt.value.transport.Some? then CustomFetch(opt.value.transport.value) else AmbientFetch;
    Fetched(req.(payload := p), FetchCall(transport, url, Spread(ComputedInit(u, req.verb, p, args, opt), InitOf(opt))))
  }

  /** `{ body, method, headers }` as `fetch` computes them: the body only when
      the method sends one, the method upper-cased, the final header record. */
  function ComputedInit(u: Helpers, verb: string, p: Payload, args: Option<RequestArgs>, opt: Option<Config>): (c: RequestInit)
    ensures c.body == if FetchSendsBody(verb) then p.body else NoBody
    ensures c.verb == ToUpper(verb) && c.rest == map[]
    ensures c.headers == FetchHeaderValues(u, p, args, opt)
    ensures ToUpper(verb) == "GET" || ToUpper(verb) == "HEAD" ==> c.body == NoBody
    ensures ToUpper(verb) == "OPTIONS" ==> c.body == p.body
  {
    var methodUpperCase := ToUpper(verb);
    var requestBody := if FetchSendsBody(verb) then p.body else NoBody;
    RequestInit(requestBody, methodUpperCase, FetchHeaderValues(u, p, args, opt), map[])
  }

  /** Header precedence in `fetch`: forced headers win, then the options'
      headers beat the call's `header` argument. */
  lemma FetchHeaderPrecedence(u: Helpers, p: Payload, a: RequestArgs, opt: Option<Config>, k: string)
    requires !(k == CookieHeader && a.cookie.Some?) && !(k == ContentTypeHeader && p.contentType.Some?)
    ensures var h := FetchHeaderValues(u, p, Some(a), opt);
            var header := a.header.GetOr(map[]);
            && (k in h <==> k in header || k in HeadersOf(opt))
            && (k in HeadersOf(opt) ==> h[k] == HeadersOf(opt)[k])
            && (k !in HeadersOf(opt) && k in header ==> h[k] == header[k])
  {
  }

  /**
    The body rule of the direct-fetch path: without an `init.body` override,
    the body goes out exactly when the upper-cased method is neither `GET`
    nor `HEAD` — so `OPTIONS` carries its body here, unlike on the managed
    path — and the decision does not depend on the method's letter case.
   */
  lemma FetchBodyRule(u: Helpers, req: ClientRequest, args: Option<RequestArgs>, opt: Option<Config>)
    requires opt.None? || opt.value.init.None? || opt.value.init.value.body.None?
    ensures var r := Fetch(u, req, args, opt);
            var body := Absorb(u, req.payload, args).body;
            && (ToUpper(req.verb) == "GET" || ToUpper(req.verb) == "HEAD" ==> r.call.init.body == NoBody)
            && (ToUpper(req.verb) == "OPTIONS" ==> r.call.init.body == body)
            && (FetchSendsBody(req.verb) <==> FetchSendsBody(ToLower(req.verb)))
  {
    CaseMappingForgetsCase(req.verb);
  }

  /**
    Fields persist between calls: a second `fetch` on the same request object
    without arguments sends what the first call normalised (its body, query,
    path params and content type).
   */
  lemma FetchReusesFields(u: Helpers, req: ClientRequest, first: Option<RequestArgs>, opt1: Option<Config>, opt2: Option<Config>)
    ensures var once := Fetch(u, req, first, opt1);
            var twice := Fetch(u, once.request, None, opt2);
            && twice.request.payload == Absorb(u, req.payload, first)
            && twice.call.url == once.call.url
  {
  }
}

=== FILE: types.dfy ===
/**
  The shapes of the values that flow through the adapter: the call-time
  argument object (`query`, `form`, `json`, `param`, `header`, `cookie`),
  the option objects handed to the engines, and the request bodies built
  from them. Only the fields the request code reads are represented.
 */
module Types {
  import opened Js

  /** One `query` entry: a single value or a repeated key. */
  datatype QueryValue = Single(text: string) | Repeated(texts: seq<string>)

  /** The `query` object, in property order. */
  type Query = seq<(string, QueryValue)>

  /** One `form` field: plain text or a blob-like file. */
  datatype FormValue = Text(text: string) | File(fileName: string, bytes: seq<bv8>)

  /** The `form` object, in property order. */
  type Form = seq<(string, FormValue)>

  /** A JSON-serialisable value, as passed in `json`. Numbers are integers:
      fractions and `NaN` are not represented. */
  datatype Json =
    | JNull
    | JBool(b: bool)
    | JNumber(n: int)
    | JString(s: string)
    | JArray(items: seq<Json>)
    | JObject(members: seq<(string, Json)>)

  /** What the form encoder produces: a multipart form or an url-encoded text. */
  datatype FormPayload = Multipart(parts: Form) | UrlEncoded(text: string)

  /** The request body the request classes keep in `rBody`; `NoBody` is `undefined`. */
  datatype Body = NoBody | FormBody(payload: FormPayload) | JsonBody(text: string)

  /**
    The first call argument. An object-valued field is `None` when it is
    absent, `undefined` or `null`. `json` may also hold a falsy value, which
    the request code skips (`JsonGiven`). `cookie` keeps `Object.entries`
    order.
   */
  datatype RequestArgs = RequestArgs(
    query: Option<Query>,
    form: Option<Form>,
    json: Option<Json>,
    param: Option<map<string, string>>,
    header: Option<map<string, string>>,
    cookie: Option<seq<(string, string)>>)

  /** JavaScript truthiness of a JSON value: `null`, `false`, `0` and `""`
      are falsy; every array and object is truthy. */
  predicate Truthy(j: Json) {
    match j
    case JNull => false
    case JBool(b) => b
    case JNumber(n) => n != 0
    case JString(s) => s != ""
    case JArray(_) => true
    case JObject(_) => true
  }

  /** `if (args.json)`: a `json` field is used only when it is truthy. */
  predicate JsonGiven(a: RequestArgs) {
    a.json.Some? && Truthy(a.json.value)
  }

  /** No argument field given: `{}`. */
  const NoArgs := RequestArgs(None, None, None, None, None, None)

  /** `RequestInit` fields a caller may put in `init` (`verb` is its `method`);
      a `Some` field overrides the one the adapter computed. */
  datatype InitOverride = InitOverride(
    body: Option<Body>,
    verb: Option<string>,
    headers: Option<map<string, string>>,
    rest: map<string, string>)

  /**
    An option object: the adapter-wide `ClientRequestOptions`, the second call
    argument, or the merged result. `headers` is the header record once any
    header function has been resolved; `transport` names a custom `fetch`;
    `extra` stands for every other key (`name`, `cacheFor`, `meta`, ...).
   */
  datatype Config = Config(
    headers: Option<map<string, string>>,
    init: Option<InitOverride>,
    transport: Option<string>,
    extra: map<string, string>)

  /** `{}` */
  const EmptyConfig := Config(None, None, None, map[])

  /** `{ headers }` */
  function HeadersOnly(headers: map<string, string>): (c: Config)
    ensures c.headers == Some(headers) && c.init.None? && c.transport.None? && c.extra == map[]
  {
    Config(Some(headers), None, None, map[])
  }

  /** `c?.headers` read as a record to spread: nothing when absent. */
  function HeadersOf(c: Option<Config>): (h: map<string, string>)
    ensures c.Some? && c.value.headers.Some? ==> h == c.value.headers.value
    ensures !(c.Some? && c.value.headers.Some?) ==> h == map[]
  {
    if c.Some? then c.value.headers.GetOr(map[]) else map[]
  }
}

=== FILE: utils.dfy ===
/**
  The collaborators the request code calls but whose bodies lie outside this
  model: the helpers of `src/utils`, hono's cookie `serialize`,
  `JSON.stringify` and the configuration `deepMerge`. Each is a field of a
  `Helpers` record, so every property proved below holds for EVERY choice of
  these functions; nothing is assumed about what they compute.
 */
module Utils {
  import opened Types

  datatype Helpers = Helpers(
    /** `mergePath(base, path)` */
    mergePath: (string, string) -> string,
    /** `replaceUrlParam(url, params)` */
    replaceUrlParam: (string, map<string, string>) -> string,
    /** `removeIndexString(url)` */
    removeIndexString: string -> string,
    /** `buildSearchParams(query).toString()` */
    searchParams: Query -> string,
    /** `handleForm(form)` */
    handleForm: Form -> FormPayload,
    /** `JSON.stringify(json)` */
    stringify: Json -> string,
    /** `serialize(key, value, { path: '/' })` */
    serializeCookie: (string, string) -> string,
    /** `upperMethodFirstLetter(method)` */
    upperMethodFirstLetter: string -> string,
    /** `deepMerge(target, source)` */
    deepMerge: (Config, Config) -> Config)
}
